=== FILE: README.md ===
# AGE System item rules — a Dafny model

The AGE System is a game-system plugin for a virtual tabletop. Almost all of
it is glue to the host application, but a few of its rules are plain
decisions over plain data. This project models those rules as pure Dafny
functions and methods, and proves properties of them:

- **Item placement** (`preCreateItem` hook): whether an item dropped on an
  actor is kept or marked temporary, and why. Vehicles take nothing.
  Spaceships take only ship features. Characters refuse ship features and a
  second focus with exactly the same name. (`item_rules.dfy`)
- **Template helpers** `concat`, `ageffect` and `when`. (`template_helpers.dfy`)
- **Default conditions** that the `createActor` hook gives a new character:
  thirteen disabled Active Effects per run of the hook. The hook runs on every
  connected client and adds a batch on each one whose user may edit the
  actor (see Findings). (`conditions.dfy`)
- **Item sheet** (`ageSystemSheetItem.js`):
  - per-type sheet sizes, the template path, `hasWgroups` and the
    weapon-group toggle (`item_sheet.dfy`);
  - the bonus `selected`/`isActive` flags (`bonuses.dfy`);
  - the power toggles: damage/healing exclusion, fatigue, resistance test
    (`power_toggles.dfy`);
  - the owned-focus name marker (`focus_name.dfy`).
- JavaScript values the helpers and the sheet receive, with `typeof` and
  truthiness defined once (`js_values.dfy`).
- JavaScript string behaviour the rules rely on: `trim`, `toLowerCase` and
  integer-to-string conversion (`js_text.dfy`).

JavaScript strings are `string`. Actor and item types stay strings, because
the source compares them with `===` and falls back to defaults for any type
it does not list. A handler that would throw a TypeError returns `None`.
Each asynchronous sheet handler is modelled by the item data left once all
of its updates have landed.

Two natural expectations about the toggles do not hold. The model proves
what does hold:

- Toggling a weapon group twice restores the list exactly when the id was
  absent, or was held once as the last element. An id held once elsewhere
  comes back at the end of the list. A duplicated id loses two copies.
- Toggling damage (or healing) twice is not the identity: it always leaves
  the other flag off.

## Model

| member | source | states |
|---|---|---|
| JsValues.EveryListTruthy | modules/sheets/ageSystemSheetItem.js:57 | Every array is truthy, the empty one included. |
| ItemRules.PreCreateItem | age-system.js:280-315 | Vehicle is the reason exactly for vehicle actors. NonShipPartOnShip is the reason exactly for a non-shipfeatures item on a spaceship. ShipPartOnChar is the reason exactly for shipfeatures on a character. DuplicatedFocus is the reason exactly for a focus on a character that already owns a focus of that exact name. Every other case is accepted. |
| ItemRules.CountPositiveIff | age-system.js:307-308 | The same-name focus filter is non-empty exactly when the actor owns a focus with that name. |
| ItemRules.InventoryIrrelevant | age-system.js:286-314 | Unless a focus is dropped on a character, the decision does not depend on the actor's items. |
| ItemRules.AcceptedWithFewerItems | age-system.js:306-313 | An item accepted by an actor owning `a + b` is also accepted by an actor owning only `a`. |
| ItemRules.DuplicateCheckIsCaseSensitive | age-system.js:307 | The name comparison is case-sensitive: "athletics" is accepted next to "Athletics", and a second "Athletics" is rejected. |
| TemplateHelpers.Concat | age-system.js:121-129 | The helper's loop outputs the in-order rendering of exactly the arguments whose typeof is not "object". |
| TemplateHelpers.ConcatIsJoinOfNonObjects | age-system.js:121-129 | Appending left to right gives the same string as joining the filtered arguments. |
| TemplateHelpers.ConcatAppend | age-system.js:121-129 | Concatenating two argument lists concatenates the outputs. |
| TemplateHelpers.ConcatIgnoresOptionsHash | age-system.js:124 | The options hash that Handlebars appends adds nothing to the output. |
| TemplateHelpers.ConcatExample | age-system.js:121-129 | Strings, numbers and booleans are stringified: `"a", 1, true` gives "a1true". |
| TemplateHelpers.Ageffect | age-system.js:132-138 | Returns the label of the first pair whose mask equals `mask`; returns the "custom" label when no pair matches. |
| TemplateHelpers.OperatorNamed | age-system.js:142-150 | Exactly the six keys eq, noteq, gt, or, and, % name an operator. |
| TemplateHelpers.When | age-system.js:141-154 | An unknown operator throws. Otherwise the fn block is rendered exactly when the operator's comparison holds, and the inverse block otherwise. |
| TemplateHelpers.Holds | age-system.js:142-149 | With booleans counted as 0 and 1, `eq`, `noteq` and `gt` compare numeric values. `or` holds when either operand is truthy and `and` when both are. `%` holds exactly when the divisor is non-zero and divides the dividend. |
| TemplateHelpers.JsRem | age-system.js:148 | JavaScript `%`: NaN exactly for a zero divisor. Otherwise the result is smaller in magnitude than the divisor, has the sign of the dividend, and differs from the dividend by a multiple of the divisor. |
| TemplateHelpers.RemainderIsMultiple | age-system.js:148 | The dividend minus its truncated remainder is a multiple of the divisor. |
| TemplateHelpers.OrAndByTruthiness | age-system.js:146-153 | `or` and `and` choose the block by the truthiness of the operands. |
| TemplateHelpers.EqNumeric | age-system.js:143 | `eq` renders fn exactly when the operands are numerically equal, so `true` equals 1. |
| TemplateHelpers.GtNumeric | age-system.js:145 | `gt` compares the operands' numeric values. |
| TemplateHelpers.NotEqOpposesEq | age-system.js:143-144 | `noteq` always renders the block that `eq` does not. |
| TemplateHelpers.JsRemZeroIff | age-system.js:148 | The truncated remainder is zero exactly when the Euclidean remainder is zero. |
| TemplateHelpers.RemainderZeroIff | age-system.js:148 | The remainder is `0` exactly when the divisor is non-zero and divides the dividend. |
| TemplateHelpers.ModIsDivisibility | age-system.js:148 | `%` renders fn exactly when the divisor is non-zero and divides the dividend; a zero divisor gives the inverse block. |
| JsText.IntToString | age-system.js:125 | An integer renders as its exact decimal digits, with a leading "-" exactly when it is negative. |
| JsText.NatToDigits | age-system.js:125 | The rendering is non-empty, all digits, and has no leading zero. |
| JsText.DigitsRoundTrip | age-system.js:125 | Reading the rendered digits back gives the number. |
| Conditions.DefaultConditions | age-system.js:318-567 | Non-character actors get no effects. A character gets 13, in table order, all disabled, lasting 9999 rounds from round 1, originating from the actor and flagged "conditions". Each effect's label, icon, description and changes are those of its table row, the description key of injured being "injuriedDesc" as in the source. Exactly exhausted, injured, restrained, unconscious and wounded carry changes. |
| Conditions.NamesDistinct | age-system.js:322-566 | The 13 condition names are pairwise distinct, and so are their label keys. |
| Conditions.ChangesOfConditions | age-system.js:386-564 | Exhausted, injured and wounded multiply speed by 0.5. Restrained and unconscious override speed with 0. Injured and wounded also add -1 and -2 to test rolls. |
| Conditions.CreatedAsWritten | age-system.js:318-567 | As written, each connected client whose user may edit the actor adds a full batch: the actor ends with the batch size times the number of such clients, and only default conditions. |
| Conditions.CreatedByCreator | age-system.js:318-319 | With a guard on the creating user, only the creator's client adds conditions, and nothing is added when the creator is not connected. |
| Conditions.CreatorAddsOnce | age-system.js:318-319 | With the guard and one client per user, the actor gets the conditions exactly once, whoever else is connected. |
| Conditions.ConditionsDuplicated | age-system.js:318-319 | As written, a game master and the owning player both online give a character 26 effects, the second 13 repeating the first; with the guard it gets 13. |
| ItemSheet.OptionsFor | modules/sheets/ageSystemSheetItem.js:9-49 | Only the size differs from the defaults. Width differs exactly for focus, weapon, talent, stunts, relationship and power. Height differs exactly for weapon, talent, relationship and power. Any other type keeps 500×450. |
| ItemSheet.SheetSizes | modules/sheets/ageSystemSheetItem.js:9-35 | The presets: focus 410×450, weapon 920×550, talent 400×500, stunts 300×450, relationship 600×300, power 468×600, others 500×450. |
| ItemSheet.TemplatePath | modules/sheets/ageSystemSheetItem.js:52-54 | The path is the sheets directory, then the item type, then "-sheet.hbs". |
| ItemSheet.TemplateRoundTrip | modules/sheets/ageSystemSheetItem.js:53 | The item type can be read back from its template path. |
| ItemSheet.TemplateParseSound | modules/sheets/ageSystemSheetItem.js:53 | Every path of the template shape is the template of the type it names. |
| ItemSheet.TemplatePathInjective | modules/sheets/ageSystemSheetItem.js:53 | Two different item types never share a template. |
| ItemSheet.HasWgroups | modules/sheets/ageSystemSheetItem.js:56-58 | The getter is the truthiness of `wgroups`: false for a missing or `null` list, true for every array, the empty one included. |
| ItemSheet.FirstIndex | modules/sheets/ageSystemSheetItem.js:144 | `indexOf` of a present element is the position of its first occurrence. |
| ItemSheet.ToggleGroup | modules/sheets/ageSystemSheetItem.js:142-148 | A present id loses its first occurrence, and the other elements keep their order and multiplicity. An absent id is appended at the end. |
| ItemSheet.OnWeaponGroupToggle | modules/sheets/ageSystemSheetItem.js:138-150 | The handler throws exactly when `wgroups` is not an array, so always when `hasWgroups` is false; otherwise it toggles the trimmed id. |
| ItemSheet.ToggleTwiceAbsent | modules/sheets/ageSystemSheetItem.js:142-148 | Toggling an absent id twice restores the list. |
| ItemSheet.ToggleTwiceOnce | modules/sheets/ageSystemSheetItem.js:142-148 | Toggling an id held once twice keeps the same multiset and leaves the id last. |
| ItemSheet.ToggleTwiceReorders | modules/sheets/ageSystemSheetItem.js:142-148 | ["a", "b"] toggled twice on "a" becomes ["b", "a"]. |
| ItemSheet.ToggleTwiceRestoresIff | modules/sheets/ageSystemSheetItem.js:142-148 | Toggling twice gives the original list back exactly when the id was absent, or was held once as the last element. |
| ItemSheet.ToggleFlipsMembership | modules/sheets/ageSystemSheetItem.js:142-148 | For an id held at most once, a toggle flips whether the list contains it. |
| ItemSheet.ToggleKeepsDuplicate | modules/sheets/ageSystemSheetItem.js:142-148 | For an id held twice or more, a toggle leaves it in the list. |
| JsText.Trim | modules/sheets/ageSystemSheetItem.js:140 | The result is `s` with only whitespace cut from both ends, and it neither starts nor ends with whitespace. |
| JsText.TrimOfTrimmed | modules/sheets/ageSystemSheetItem.js:140 | An id without surrounding whitespace is unchanged by trim. |
| JsText.TrimIdempotent | modules/sheets/ageSystemSheetItem.js:140 | Trimming twice is the same as trimming once. |
| JsText.LowerChar | modules/sheets/ageSystemSheetItem.js:238 | Capitals map 32 code points up; every other character is unchanged; the result is never a capital. |
| JsText.ToLower | modules/sheets/ageSystemSheetItem.js:238 | Lower-casing preserves length and maps each character independently. |
| JsText.ToLowerIdempotent | modules/sheets/ageSystemSheetItem.js:238 | Lower-casing twice is the same as lower-casing once. |
| Bonuses.ToggleBonus | modules/sheets/ageSystemSheetItem.js:152-157 | Negates `isActive` of that bonus only; no other flag or key changes; throws for a missing bonus. |
| Bonuses.ToggleBonusInvolution | modules/sheets/ageSystemSheetItem.js:152-157 | Toggling a bonus twice restores the flags. |
| Bonuses.RemoveBonus | modules/sheets/ageSystemSheetItem.js:159-168 | Both flags of that bonus become false; every other bonus is unchanged. |
| Bonuses.RemoveBonusIdempotent | modules/sheets/ageSystemSheetItem.js:159-168 | Removing a bonus twice is the same as removing it once. |
| Bonuses.CollectBonusOptions | modules/sheets/ageSystemSheetItem.js:170-188 | The dialog's options are exactly the bonuses that are not selected. |
| Bonuses.PickBonus | modules/sheets/ageSystemSheetItem.js:178-183 | Picking option `m` sets only `selected` of `m`. |
| Bonuses.PickShrinksOptions | modules/sheets/ageSystemSheetItem.js:173-183 | After a pick, the options lose exactly the picked bonus. |
| Bonuses.RemoveRestoresOption | modules/sheets/ageSystemSheetItem.js:159-188 | After a removal, the options gain exactly the removed bonus. |
| Bonuses.RemoveUndoesPick | modules/sheets/ageSystemSheetItem.js:159-183 | Removing an inactive bonus right after picking it restores the flags. |
| Bonuses.OpensBonusDialogAsWritten | modules/sheets/ageSystemSheetItem.js:189 | As written, the dialog always opens. |
| Bonuses.OpensBonusDialog | modules/sheets/ageSystemSheetItem.js:189 | Corrected: the dialog opens exactly when some option exists. |
| Bonuses.EmptyBonusDialog | modules/sheets/ageSystemSheetItem.js:170-189 | With every bonus selected there are no options, yet the dialog opens as written; the corrected check keeps it closed. |
| Bonuses.DialogOpensIffOption | modules/sheets/ageSystemSheetItem.js:170-189 | The corrected dialog opens exactly when some bonus is unselected. |
| PowerToggles.ToggleDamage | modules/sheets/ageSystemSheetItem.js:204-209 | Flips `causeDamage`. Switching it on clears `causeHealing`; switching it off leaves healing unchanged. The other flags are unchanged, and damage and healing are never both on afterwards. |
| PowerToggles.ToggleHealing | modules/sheets/ageSystemSheetItem.js:211-216 | The mirror image: flips `causeHealing`; switching it on clears `causeDamage`; the result is exclusive. |
| PowerToggles.ToggleFatigue | modules/sheets/ageSystemSheetItem.js:218-221 | Flips `useFatigue` and nothing else. |
| PowerToggles.ToggleResistTest | modules/sheets/ageSystemSheetItem.js:223-226 | Flips `hasTest` and nothing else. |
| PowerToggles.FatigueInvolution | modules/sheets/ageSystemSheetItem.js:218-221 | The fatigue toggle is an involution. |
| PowerToggles.ResistTestInvolution | modules/sheets/ageSystemSheetItem.js:223-226 | The resist-test toggle is an involution. |
| PowerToggles.ToggleDamageTwice | modules/sheets/ageSystemSheetItem.js:204-209 | Toggling damage twice restores damage and leaves healing off. |
| PowerToggles.ToggleHealingTwice | modules/sheets/ageSystemSheetItem.js:211-216 | Toggling healing twice restores healing and leaves damage off. |
| PowerToggles.ExclusionPreserved | modules/sheets/ageSystemSheetItem.js:204-226 | No sequence of toggles breaks damage/healing exclusion once it holds. |
| PowerToggles.ExclusionEstablished | modules/sheets/ageSystemSheetItem.js:204-226 | Any sequence containing a damage or healing toggle ends exclusive, whatever the start state. |
| FocusName.OwnedFocusNameChange | modules/sheets/ageSystemSheetItem.js:231-248 | The field becomes the typed text or "*" + typed text, so at most one star is added. The star is added exactly when a focus with a different id has a stored lower-case name equal to the typed text lower-cased. |
| FocusName.OwnEntryIgnored | modules/sheets/ageSystemSheetItem.js:244 | The edited focus's own entry never triggers the marker, whatever its name. |
| FocusName.CaseOfTypedIgnored | modules/sheets/ageSystemSheetItem.js:238-244 | Typing in any case gives the same verdict as typing lower case. |

## Findings

| source | as written | input that shows it | evidently intended | confidence | as-written member | corrected member |
|---|---|---|---|---|---|---|
| modules/sheets/ageSystemSheetItem.js:189 | `bonusOptions === {}` compares with a fresh object by reference. It is never true, so the early return never happens. | An item whose every bonus is already selected, e.g. `{defense: {selected: true, isActive: false}}`: the dialog opens with no option to pick. | Return without opening the dialog when no bonus can be added. | high; not executed | Bonuses.OpensBonusDialogAsWritten (shown by Bonuses.EmptyBonusDialog) | Bonuses.OpensBonusDialog |
| age-system.js:318 | The `createActor` hook ignores its third argument, the creating user's id (misnamed `actorId`), and has no `userId === game.user.id` guard. The host runs `create…` hooks on every connected client, so each client that may edit the actor calls `createEmbeddedDocuments` at line 567. | A game master and the owning player both online when a character is created: it gets every condition twice. | Only the creating user's client adds the conditions. | medium; not executed (depends on the host calling the hook on every client) | Conditions.CreatedAsWritten (shown by Conditions.ConditionsDuplicated) | Conditions.CreatedByCreator (proved by Conditions.CreatorAddsOnce) |

## Left out

- Host plumbing is not modelled: hook and sheet registration, document classes, template preloading, `Handlebars.registerHelper` mechanics and console output (age-system.js:20-118, 161-175). None of it has behaviour to state.
- The `ready`, `renderCompendium` and `render…` hooks are not modelled: settings, user flags, colour scheme, tracker and roller refresh, the Dice So Nice import and compendium lists. All of it is persistence and UI.
- The migration gate is not modelled. `isNewerVersion` and `migrateWorld` belong to the host or to files outside this model.
- `preCreateItem` returns only the decision. The warnings and their localised text are not modelled. Neither is the `data.temporary = true` write.
- ItemRules.PreCreateItem takes the owning actor as given. An item created with no owner would make line 286 throw.
- The sheet's `getData`, `activateListeners` and event lookups are host-provided and not modelled. That covers `closest`/`dataset` and which handlers are bound for which item types.
- `renderTemplate`, the `Dialog` and the promise sequencing of `item.update` are not modelled. Each handler is modelled by its final data.
- Bonuses: only the `selected` and `isActive` flags of a bonus are modelled. The handlers neither read nor write its other fields.
- TemplateHelpers.When: operands are limited to numbers and booleans, and numbers to integers. Loose equality on strings or objects is not modelled. Neither are operator names inherited from `Object.prototype`, such as "toString", which resolve to a function instead of throwing.
- TemplateHelpers.Concat: numbers are limited to integers, rendered by `JsText.IntToString`. Symbol, function and bigint arguments are not modelled.
- JsText.IntToString: renders the exact decimal digits, which is what `String(n)` gives only for magnitudes up to 2^53. Above that JavaScript prints the shortest digits that round-trip (2^64 prints as "18446744073709552000"), and from 10^21 on it uses exponent notation.
- TemplateHelpers.Ageffect: masks are compared as strings only. The localised "custom" label is a parameter.
- JsText.LowerChar: lowers only ASCII and Latin-1 capitals and leaves every other character unchanged. `toLowerCase` also lowers capitals beyond Latin-1, for example U+0100 to U+0101.
- JsText.ToLower: maps only ASCII and Latin-1 capitals. The other Unicode case mappings of `toLowerCase` are not modelled, including the ones that change a string's length.
- ItemSheet.OptionsFor: the constructor stores the presets as strings ("410") in both `options` and `position`. The model records them as numbers in one options record.
- Conditions.DefaultConditions: `game.i18n.localize` is a function parameter, and the `createEmbeddedDocuments` call is not modelled. The function is one client's run of the hook. The source runs it on every connected client, with no check of the creating user's id. Conditions.CreatedAsWritten models the combined result; clients whose user may not edit the actor are taken to add nothing.
- FocusName.OwnedFocusNameChange models one keystroke. The field value it reads is the typed text, so a star left by an earlier keystroke is part of that text.


=== FILE: bonuses.dfy ===
/** The item sheet's bonus controls: each entry of `itemMods` carries a
    `selected` flag (the bonus is on the sheet) and an `isActive` flag (the
    bonus applies). Each handler's net effect on the flags is modelled. */
module Bonuses {
  import opened Wrappers

  datatype ModFlags = ModFlags(selected: bool, isActive: bool)

  /** `itemMods`, keyed by bonus name. */
  type ItemMods = map<string, ModFlags>

  /** `_onToggleBonus`: negate `isActive` of bonus `m`. `None` is the
      TypeError raised when the item has no bonus `m`. */
  function ToggleBonus(mods: ItemMods, m: string): (r: Option<ItemMods>)
    ensures r.None? <==> m !in mods
    ensures r.Some? ==>
      && r.value.Keys == mods.Keys
      && r.value[m].isActive == !mods[m].isActive
      && r.value[m].selected == mods[m].selected
      && forall k :: k in mods && k != m ==> r.value[k] == mods[k]
  {
    if m in mods then Some(mods[m := mods[m].(isActive := !mods[m].isActive)]) else None
  }

  /** Toggling the same bonus twice restores the flags. */
  lemma ToggleBonusInvolution(mods: ItemMods, m: string)
    requires m in mods
    ensures ToggleBonus(ToggleBonus(mods, m).value, m) == Some(mods)
  {
    var twice := ToggleBonus(ToggleBonus(mods, m).value, m).value;
    assert twice.Keys == mods.Keys;
    assert twice[m] == ModFlags(mods[m].selected, mods[m].isActive) == mods[m];
    assert forall k :: k in mods ==> twice[k] == mods[k];
    assert twice == mods;
  }

  /** `_onRemoveBonus`: both flags of bonus `m` are written false (the update
      path creates the entry if it was missing); no other bonus changes. */
  function RemoveBonus(mods: ItemMods, m: string): (r: ItemMods)
    ensures r.Keys == mods.Keys + {m}
    ensures !r[m].selected && !r[m].isActive
    ensures forall k :: k in mods && k != m ==> r[k] == mods[k]
  {
    mods[m := ModFlags(false, false)]
  }

  /** Removing a bonus a second time changes nothing. */
  lemma RemoveBonusIdempotent(mods: ItemMods, m: string)
    ensures RemoveBonus(RemoveBonus(mods, m), m) == RemoveBonus(mods, m)
  {
  }

  /** The bonuses the add-bonus dialog offers: those not yet selected. */
  function Selectable(mods: ItemMods): set<string> {
    set m | m in mods && !mods[m].selected
  }

  /** `_onAddBonus`'s option list: every own key of `itemMods` whose bonus is
      not selected, gathered one key at a time. */
  method CollectBonusOptions(mods: ItemMods) returns (opts: set<string>)
    ensures forall m :: m in opts <==> m in mods && !mods[m].selected
  {
    opts := {};
    var todo := mods.Keys;
    while todo != {}
      invariant todo <= mods.Keys
      invariant forall m :: m in opts <==> m in mods.Keys - todo && !mods[m].selected
      decreases todo
    {
      var m :| m in todo;
      if !mods[m].selected {
        opts := opts + {m};
      }
      todo := todo - {m};
    }
  }

  /** The callback of option `m`: set `selected` of that bonus only. */
  function PickBonus(mods: ItemMods, m: string): (r: ItemMods)
    requires m in Selectable(mods)
    ensures r.Keys == mods.Keys
    ensures r[m].selected && r[m].isActive == mods[m].isActive
    ensures forall k :: k in mods && k != m ==> r[k] == mods[k]
  {
    mods[m := mods[m].(selected := true)]
  }

  /** Picking an option removes exactly that option from the next dialog. */
  lemma PickShrinksOptions(mods: ItemMods, m: string)
    requires m in Selectable(mods)
    ensures Selectable(PickBonus(mods, m)) == Selectable(mods) - {m}
  {
  }

  /** Removing a bonus makes it an option again, and adds no other option. */
  lemma RemoveRestoresOption(mods: ItemMods, m: string)
    ensures Selectable(RemoveBonus(mods, m)) == Selectable(mods) + {m}
  {
  }

  /** Removing a bonus undoes picking it when it was inactive. */
  lemma RemoveUndoesPick(mods: ItemMods, m: string)
    requires m in Selectable(mods) && !mods[m].isActive
    ensures RemoveBonus(PickBonus(mods, m), m) == mods
  {
    var back := RemoveBonus(PickBonus(mods, m), m);
    assert forall k :: k in mods ==> back[k] == mods[k];
  }

  /** Whether `_onAddBonus` opens its dialog, as written: the early return
      compares the option object with a fresh `{}` by reference, which never
      holds, so the dialog opens even with no option to offer. */
  function OpensBonusDialogAsWritten(opts: set<string>): (opens: bool)
    ensures opens
  {
    true
  }

  /** Whether the dialog should open: only when some bonus can be added. */
  function OpensBonusDialog(opts: set<string>): (opens: bool)
    ensures opens <==> exists m :: m in opts
  {
    opts != {}
  }

  /** An item whose only bonus is already selected offers nothing, yet the
      dialog opens as written; the intended check keeps it closed. */
  lemma EmptyBonusDialog()
    ensures var mods := map["defense" := ModFlags(true, false)];
      && Selectable(mods) == {}
      && OpensBonusDialogAsWritten(Selectable(mods))
      && !OpensBonusDialog(Selectable(mods))
  {
    var mods := map["defense" := ModFlags(true, false)];
    assert Selectable(mods) == {};
  }

  /** The intended dialog opens exactly when an option exists. */
  lemma DialogOpensIffOption(mods: ItemMods)
    ensures OpensBonusDialog(Selectable(mods)) <==> exists m :: m in mods && !mods[m].selected
  {
    if exists m :: m in mods && !mods[m].selected {
      var m :| m in mods && !mods[m].selected;
      assert m in Selectable(mods);
    }
  }
}

=== FILE: conditions.dfy ===
/** The `createActor` hook: a new character receives the standard conditions
    as disabled Active Effects. */
module Conditions {

  /** Active Effect change modes used by the table (the host's MULTIPLY, ADD
      and OVERRIDE). */
  const Multiply: int := 1
  const Add: int := 2
  const Override: int := 5

  /** The fixed duration every condition is created with. */
  const StartRound: int := 1
  const Rounds: int := 9999

  datatype Change = Change(key: string, mode: int, value: string)

  datatype Duration = Duration(startRound: int, rounds: int)

  /** One row of the hook's literal list, before localisation: the condition's
      name, its icon, the localisation key of its description and its changes
      (an absent `changes` is the empty list). */
  datatype ConditionSpec = ConditionSpec(name: string, icon: string, descKey: string, changes: seq<Change>)

  /** The effect data handed to `createEmbeddedDocuments`. `title` is the
      effect's `label` field; `flagType` and `description` are the
      `flags["age-system"]` entries. */
  datatype ActiveEffect = ActiveEffect(
    title: string,
    disabled: bool,
    origin: string,
    icon: string,
    duration: Duration,
    flagType: string,
    description: string,
    changes: seq<Change>)

  const Prefix: string := "age-system.conditions."

  const HalfSpeed: Change := Change("data.speed.total", Multiply, "0.5")
  const NoSpeed: Change := Change("data.speed.total", Override, "0")

  /** The thirteen conditions in the hook's order. The injured description
      key is spelled "injuriedDesc" in the source and kept so. */
  const Table: seq<ConditionSpec> := [
    ConditionSpec("blinded", "icons/magic/defensive/illusion-evasion-echo-purple.webp", "blindedDesc", []),
    ConditionSpec("deafened", "icons/magic/sonic/bell-alarm-red-purple.webp", "deafenedDesc", []),
    ConditionSpec("dying", "icons/magic/life/heart-broken-red.webp", "dyingDesc", []),
    ConditionSpec("exhausted", "icons/magic/unholy/strike-body-explode-disintegrate.webp", "exhaustedDesc",
      [HalfSpeed]),
    ConditionSpec("fatigued", "icons/magic/unholy/strike-body-life-soul-purple.webp", "fatiguedDesc", []),
    ConditionSpec("freefalling", "icons/magic/air/air-pressure-shield-blue.webp", "freefallingDesc", []),
    ConditionSpec("helpless", "icons/magic/control/sihouette-hold-beam-green.webp", "helplessDesc", []),
    ConditionSpec("hindered", "icons/magic/control/debuff-chains-shackles-movement-blue.webp", "hinderedDesc", []),
    ConditionSpec("injured", "icons/skills/wounds/injury-face-impact-orange.webp", "injuriedDesc",
      [HalfSpeed, Change("data.testMod", Add, "-1")]),
    ConditionSpec("prone", "icons/skills/wounds/injury-face-impact-orange.webp", "proneDesc", []),
    ConditionSpec("restrained", "icons/magic/control/debuff-chains-shackles-movement-purple.webp", "restrainedDesc",
      [NoSpeed]),
    ConditionSpec("unconscious", "icons/magic/control/silhouette-fall-slip-prone.webp", "unconsciousDesc",
      [NoSpeed]),
    ConditionSpec("wounded", "icons/skills/wounds/injury-face-impact-orange.webp", "woundedDesc",
      [HalfSpeed, Change("data.testMod", Add, "-2")])
  ]

  /** The conditions whose effect carries changes. */
  const WithChanges: set<string> := {"exhausted", "injured", "restrained", "unconscious", "wounded"}

  /** One effect built from a table row; `localize` is the host's
      `game.i18n.localize` and `uuid` the new actor's id. */
  function EffectOf(spec: ConditionSpec, uuid: string, localize: string -> string): ActiveEffect {
    ActiveEffect(
      localize(Prefix + spec.name), true, uuid, spec.icon, Duration(StartRound, Rounds),
      "conditions", localize(Prefix + spec.descKey), spec.changes)
  }

  function EffectsOf(specs: seq<ConditionSpec>, uuid: string, localize: string -> string): (es: seq<ActiveEffect>)
    ensures |es| == |specs|
    ensures forall i :: 0 <= i < |specs| ==> es[i] == EffectOf(specs[i], uuid, localize)
  {
    if specs == [] then [] else [EffectOf(specs[0], uuid, localize)] + EffectsOf(specs[1..], uuid, localize)
  }

  /** The effects the hook creates for a new actor of type `actorType`:
      thirteen disabled conditions, each lasting 9999 rounds from round 1 and
      originating from the actor, for a character, and none otherwise. */
  function DefaultConditions(actorType: string, uuid: string, localize: string -> string): (es: seq<ActiveEffect>)
    ensures actorType != "char" ==> es == []
    ensures actorType == "char" ==> |es| == 13
    ensures forall e :: e in es ==>
      && e.disabled
      && e.duration == Duration(1, 9999)
      && e.origin == uuid
      && e.flagType == "conditions"
    ensures forall i :: 0 <= i < |es| ==>
      && es[i].title == localize(Prefix + Table[i].name)
      && es[i].icon == Table[i].icon
      && es[i].description == localize(Prefix + Table[i].descKey)
      && es[i].changes == Table[i].changes
    ensures forall i :: 0 <= i < |es| ==> (|es[i].changes| > 0 <==> Table[i].name in WithChanges)
  {
    if actorType != "char" then [] else EffectsOf(Table, uuid, localize)
  }

  /** The thirteen condition names are pairwise distinct, and so are the
      localisation keys of their labels. */
  lemma NamesDistinct()
    ensures forall i, j :: 0 <= i < j < |Table| ==> Table[i].name != Table[j].name
    ensures forall i, j :: 0 <= i < j < |Table| ==> Prefix + Table[i].name != Prefix + Table[j].name
  {
    forall i, j | 0 <= i < j < |Table|
      ensures Table[i].name != Table[j].name
    {
      assert Table[i].name[..2] != Table[j].name[..2] || Table[i].name[2..] != Table[j].name[2..];
    }
    forall i, j | 0 <= i < j < |Table|
      ensures Prefix + Table[i].name != Prefix + Table[j].name
    {
      assert (Prefix + Table[i].name)[|Prefix|..] == Table[i].name;
      assert (Prefix + Table[j].name)[|Prefix|..] == Table[j].name;
    }
  }

  /** What each condition with changes does: exhausted, injured and wounded
      halve speed; restrained and unconscious set it to 0; injured and wounded
      also lower test rolls by 1 and 2. */
  lemma ChangesOfConditions(uuid: string, localize: string -> string)
    ensures var es := DefaultConditions("char", uuid, localize);
      && es[3].changes == [Change("data.speed.total", 1, "0.5")]
      && es[8].changes == [Change("data.speed.total", 1, "0.5"), Change("data.testMod", 2, "-1")]
      && es[10].changes == [Change("data.speed.total", 5, "0")]
      && es[11].changes == [Change("data.speed.total", 5, "0")]
      && es[12].changes == [Change("data.speed.total", 1, "0.5"), Change("data.testMod", 2, "-2")]
  {
  }

  // ------------------------------------------------------ connected clients

  /** A connected client, by the user logged in on it and whether that user
      may edit the new actor. A user is logged in on at most one client. */
  datatype Client = Client(user: string, canEdit: bool)

  predicate DistinctUsers(clients: seq<Client>) {
    forall i, j :: 0 <= i < j < |clients| ==> clients[i].user != clients[j].user
  }

  /** How many of `clients` may edit the actor. */
  function Editors(clients: seq<Client>): (n: nat)
    ensures n <= |clients|
  {
    if clients == [] then 0
    else (if clients[0].canEdit then 1 else 0) + Editors(clients[1..])
  }

  /** The effects the actor ends with, as written. The host runs the
      `createActor` hook on every connected client and passes the creating
      user's id as its third argument, which the hook ignores. Each client
      whose user may edit the actor adds its own batch. */
  function CreatedAsWritten(clients: seq<Client>, actorType: string, uuid: string, localize: string -> string): (es: seq<ActiveEffect>)
    ensures |es| == Editors(clients) * |DefaultConditions(actorType, uuid, localize)|
    ensures forall e :: e in es ==> e in DefaultConditions(actorType, uuid, localize)
  {
    if clients == [] then []
    else
      (if clients[0].canEdit then DefaultConditions(actorType, uuid, localize) else [])
        + CreatedAsWritten(clients[1..], actorType, uuid, localize)
  }

  /** The effects the actor ends with when the hook returns early unless the
      client's user is the creator, so that only the creating client adds them. */
  function CreatedByCreator(clients: seq<Client>, creator: string, actorType: string, uuid: string, localize: string -> string): (es: seq<ActiveEffect>)
    ensures (forall c :: c in clients ==> c.user != creator) ==> es == []
    ensures forall e :: e in es ==> e in DefaultConditions(actorType, uuid, localize)
  {
    if clients == [] then []
    else
      (if clients[0].canEdit && clients[0].user == creator then DefaultConditions(actorType, uuid, localize) else [])
        + CreatedByCreator(clients[1..], creator, actorType, uuid, localize)
  }

  /** With the creator's guard, the actor gets the conditions exactly once,
      however many other editors are connected. */
  lemma {:induction false} CreatorAddsOnce(clients: seq<Client>, k: nat, actorType: string, uuid: string, localize: string -> string)
    requires DistinctUsers(clients)
    requires k < |clients| && clients[k].canEdit
    ensures CreatedByCreator(clients, clients[k].user, actorType, uuid, localize) == DefaultConditions(actorType, uuid, localize)
  {
    var creator := clients[k].user;
    var rest := clients[1..];
    if k == 0 {
      assert forall c :: c in rest ==> c.user != creator by {
        forall c | c in rest
          ensures c.user != creator
        {
          var j :| 0 <= j < |rest| && rest[j] == c;
          assert clients[j + 1] == c;
        }
      }
      assert CreatedByCreator(rest, creator, actorType, uuid, localize) == [];
      assert CreatedByCreator(clients, creator, actorType, uuid, localize)
        == DefaultConditions(actorType, uuid, localize) + [];
    } else {
      assert clients[0].user != creator;
      assert rest[k - 1] == clients[k];
      assert DistinctUsers(rest) by {
        forall i, j | 0 <= i < j < |rest|
          ensures rest[i].user != rest[j].user
        {
          assert rest[i] == clients[i + 1] && rest[j] == clients[j + 1];
        }
      }
      CreatorAddsOnce(rest, k - 1, actorType, uuid, localize);
      assert CreatedByCreator(clients, creator, actorType, uuid, localize)
        == [] + CreatedByCreator(rest, creator, actorType, uuid, localize);
    }
  }

  /** As written, a game master and the owning player both online give a new
      character every condition twice: 26 effects, the second batch repeating
      the first. */
  lemma ConditionsDuplicated(uuid: string, localize: string -> string)
    ensures var es := CreatedAsWritten([Client("gm", true), Client("player", true)], "char", uuid, localize);
      |es| == 26 && es[..13] == es[13..]
    ensures CreatedByCreator([Client("gm", true), Client("player", true)], "player", "char", uuid, localize)
      == DefaultConditions("char", uuid, localize)
  {
    var clients := [Client("gm", true), Client("player", true)];
    var d := DefaultConditions("char", uuid, localize);
    assert clients[1..] == [Client("player", true)];
    assert clients[1..][1..] == [];
    assert CreatedAsWritten(clients, "char", uuid, localize) == d + (d + []);
    CreatorAddsOnce(clients, 1, "char", uuid, localize);
  }
}

=== FILE: focus_name.dfy ===
/** The owned-focus name guard: while the name of a focus owned by an actor
    is typed, the field is prefixed with "*" when the name collides with one
    of the actor's other foci. */
module FocusName {
  import JsText

  /** An owned focus as the guard reads it: its id and its stored
      lower-cased name. */
  datatype FocusEntry = FocusEntry(id: string, nameLowerCase: string)

  /** Some focus other than the edited item has the typed name, ignoring case. */
  predicate CollidesWithOther(itemId: string, foci: seq<FocusEntry>, typed: string) {
    exists i :: 0 <= i < |foci| && foci[i].id != itemId && foci[i].nameLowerCase == JsText.ToLower(typed)
  }

  /** `_onOwnedFocusNameChange`: the field's value after the handler ran over
      the owner's foci. Every match writes the same `"*" + typed`, so at most
      one star is added however many foci match. */
  method OwnedFocusNameChange(itemId: string, foci: seq<FocusEntry>, typed: string) returns (field: string)
    ensures field == typed || field == "*" + typed
    ensures field == "*" + typed <==> CollidesWithOther(itemId, foci, typed)
  {
    field := typed;
    var typedLowerCase := JsText.ToLower(typed);
    var i := 0;
    while i < |foci|
      invariant 0 <= i <= |foci|
      invariant field == typed || field == "*" + typed
      invariant field == "*" + typed <==>
        exists j :: 0 <= j < i && foci[j].id != itemId && foci[j].nameLowerCase == typedLowerCase
    {
      var e := foci[i];
      if e.id != itemId && e.nameLowerCase == typedLowerCase {
        field := "*" + typed;
      }
      i := i + 1;
    }
  }

  /** The edited focus never marks itself: adding its own entry, under any
      name, changes nothing. */
  lemma {:induction false} OwnEntryIgnored(itemId: string, foci: seq<FocusEntry>, name: string, typed: string)
    ensures CollidesWithOther(itemId, foci + [FocusEntry(itemId, name)], typed)
      <==> CollidesWithOther(itemId, foci, typed)
  {
    var more := foci + [FocusEntry(itemId, name)];
    if CollidesWithOther(itemId, more, typed) {
      var i :| 0 <= i < |more| && more[i].id != itemId && more[i].nameLowerCase == JsText.ToLower(typed);
      assert foci[i] == more[i];
    }
    if CollidesWithOther(itemId, foci, typed) {
      var i :| 0 <= i < |foci| && foci[i].id != itemId && foci[i].nameLowerCase == JsText.ToLower(typed);
      assert more[i] == foci[i];
    }
  }

  /** The check ignores the case of what is typed. */
  lemma CaseOfTypedIgnored(itemId: string, foci: seq<FocusEntry>, typed: string)
    ensures CollidesWithOther(itemId, foci, typed) <==> CollidesWithOther(itemId, foci, JsText.ToLower(typed))
  {
    JsText.ToLowerIdempotent(typed);
  }
}

=== FILE: item_rules.dfy ===
/** The `preCreateItem` hook: before an item is created on an actor, decide
    whether the host may keep it or must mark it temporary. The rules are tried
    in a fixed order and the first that fires decides. */
module ItemRules {

  /** An item the actor already owns, as the duplicate-focus rule sees it. */
  datatype OwnedItem = OwnedItem(name: string, kind: string)

  /** The owning actor: its type string and its embedded items. */
  datatype Actor = Actor(kind: string, items: seq<OwnedItem>)

  datatype RejectReason = Vehicle | NonShipPartOnShip | ShipPartOnChar | DuplicatedFocus

  /** `Reject` is the hook's `data.temporary = true` branch; `Accept` is falling
      off the end of the hook. */
  datatype Decision = Accept | Reject(reason: RejectReason)

  /** Length of `actor.items.filter(f => f.name === name && f.type === "focus")`. */
  function CountFocusNamed(items: seq<OwnedItem>, name: string): (n: nat)
    ensures n <= |items|
  {
    if items == [] then 0
    else
      var here := if items[0].name == name && items[0].kind == "focus" then 1 else 0;
      here + CountFocusNamed(items[1..], name)
  }

  /** Some owned focus has exactly this name (case-sensitive). */
  predicate OwnsFocusNamed(items: seq<OwnedItem>, name: string) {
    exists i :: 0 <= i < |items| && items[i].kind == "focus" && items[i].name == name
  }

  /** The filter is non-empty exactly when a same-named focus is owned. */
  lemma {:induction false} CountPositiveIff(items: seq<OwnedItem>, name: string)
    ensures CountFocusNamed(items, name) > 0 <==> OwnsFocusNamed(items, name)
  {
    if items != [] {
      CountPositiveIff(items[1..], name);
      if OwnsFocusNamed(items[1..], name) {
        var i :| 0 <= i < |items[1..]| && items[1..][i].kind == "focus" && items[1..][i].name == name;
        assert items[i + 1] == items[1..][i];
      }
      if OwnsFocusNamed(items, name) && !(items[0].name == name && items[0].kind == "focus") {
        var i :| 0 <= i < |items| && items[i].kind == "focus" && items[i].name == name;
        assert items[1..][i - 1] == items[i];
      }
    }
  }

  /** The hook's decision for an item of type `itemKind` named `itemName`
      dropped on `actor`. Each reason fires exactly when its own rule matches
      and no earlier rule did; everything else is accepted. */
  function PreCreateItem(actor: Actor, itemKind: string, itemName: string): (d: Decision)
    ensures d == Reject(Vehicle) <==> actor.kind == "vehicle"
    ensures d == Reject(NonShipPartOnShip) <==> actor.kind == "spaceship" && itemKind != "shipfeatures"
    ensures d == Reject(ShipPartOnChar) <==> actor.kind == "char" && itemKind == "shipfeatures"
    ensures d == Reject(DuplicatedFocus)
      <==> actor.kind == "char" && itemKind == "focus" && OwnsFocusNamed(actor.items, itemName)
    ensures d == Accept <==>
      && actor.kind != "vehicle"
      && (actor.kind == "spaceship" ==> itemKind == "shipfeatures")
      && (actor.kind == "char" ==> itemKind != "shipfeatures")
      && !(actor.kind == "char" && itemKind == "focus" && OwnsFocusNamed(actor.items, itemName))
  {
    CountPositiveIff(actor.items, itemName);
    if actor.kind == "vehicle" then Reject(Vehicle)
    else if actor.kind == "spaceship" && itemKind != "shipfeatures" then Reject(NonShipPartOnShip)
    else if actor.kind == "char" && itemKind == "shipfeatures" then Reject(ShipPartOnChar)
    else if actor.kind == "char" && itemKind == "focus" && CountFocusNamed(actor.items, itemName) > 0
    then Reject(DuplicatedFocus)
    else Accept
  }

  /** Owned items matter only to a focus dropped on a character: for every
      other combination the decision ignores the inventory. */
  lemma InventoryIrrelevant(kind: string, a: seq<OwnedItem>, b: seq<OwnedItem>,
                                              itemKind: string, itemName: string)
    requires !(kind == "char" && itemKind == "focus")
    ensures PreCreateItem(Actor(kind, a), itemKind, itemName) == PreCreateItem(Actor(kind, b), itemKind, itemName)
  {
  }

  /** Owning more items can only turn an acceptance into a rejection, never
      the other way round: an item accepted with `a + b` is accepted with `a`. */
  lemma {:induction false} AcceptedWithFewerItems(kind: string, a: seq<OwnedItem>, b: seq<OwnedItem>,
                                                 itemKind: string, itemName: string)
    requires PreCreateItem(Actor(kind, a + b), itemKind, itemName) == Accept
    ensures PreCreateItem(Actor(kind, a), itemKind, itemName) == Accept
  {
    if OwnsFocusNamed(a, itemName) {
      var i :| 0 <= i < |a| && a[i].kind == "focus" && a[i].name == itemName;
      assert (a + b)[i] == a[i];
    }
  }

  /** The duplicate check compares names exactly: a character owning the focus
      "Athletics" still accepts a new focus called "athletics". */
  lemma DuplicateCheckIsCaseSensitive()
    ensures PreCreateItem(Actor("char", [OwnedItem("Athletics", "focus")]), "focus", "athletics") == Accept
    ensures PreCreateItem(Actor("char", [OwnedItem("Athletics", "focus")]), "focus", "Athletics")
      == Reject(DuplicatedFocus)
  {
    var items := [OwnedItem("Athletics", "focus")];
    assert items[0].kind == "focus" && items[0].name == "Athletics";
  }
}

=== FILE: item_sheet.dfy ===
/** The item sheet's static configuration (default options, per-type size
    presets, template path) and its weapon-group list toggle. */
module ItemSheet {
  import opened Wrappers
  import opened JsValues
  import JsText

  datatype Tab = Tab(navSelector: string, contentSelector: string, initial: string)

  /** The sheet options the item sheet sets; sizes are in pixels. */
  datatype SheetOptions = SheetOptions(width: int, height: int, classes: seq<string>, tabs: seq<Tab>)

  /** `defaultOptions`: 500 wide, 450 high, the system's CSS classes and one
      tab group opening on "main". */
  const DefaultOptions: SheetOptions := SheetOptions(
    500, 450,
    ["age-system", "sheet", "item", "colorset-second-tier"],
    [Tab(".add-sheet-tabs", ".sheet-tab-section", "main")])

  /** The item types whose sheet gets its own width, and its own height. */
  const WidthPresetTypes: set<string> := {"focus", "weapon", "talent", "stunts", "relationship", "power"}
  const HeightPresetTypes: set<string> := {"weapon", "talent", "relationship", "power"}

  /** The options a new sheet for an item of type `itemType` ends up with once
      the constructor's `switch` has overridden the defaults. A dimension the
      type does not list keeps its default; nothing but the size changes. */
  function OptionsFor(itemType: string): (o: SheetOptions)
    ensures o.classes == DefaultOptions.classes && o.tabs == DefaultOptions.tabs
    ensures o.width != DefaultOptions.width <==> itemType in WidthPresetTypes
    ensures o.height != DefaultOptions.height <==> itemType in HeightPresetTypes
    ensures itemType !in WidthPresetTypes ==> o == DefaultOptions
  {
    match itemType
    case "focus" => DefaultOptions.(width := 410)
    case "weapon" => DefaultOptions.(width := 920, height := 550)
    case "talent" => DefaultOptions.(width := 400, height := 500)
    case "stunts" => DefaultOptions.(width := 300)
    case "relationship" => DefaultOptions.(width := 600, height := 300)
    case "power" => DefaultOptions.(width := 468, height := 600)
    case _ => DefaultOptions
  }

  /** The preset sizes, type by type. */
  lemma SheetSizes()
    ensures OptionsFor("focus").width == 410 && OptionsFor("focus").height == 450
    ensures OptionsFor("weapon").width == 920 && OptionsFor("weapon").height == 550
    ensures OptionsFor("talent").width == 400 && OptionsFor("talent").height == 500
    ensures OptionsFor("stunts").width == 300 && OptionsFor("stunts").height == 450
    ensures OptionsFor("relationship").width == 600 && OptionsFor("relationship").height == 300
    ensures OptionsFor("power").width == 468 && OptionsFor("power").height == 600
    ensures OptionsFor("shipfeatures").width == 500 && OptionsFor("shipfeatures").height == 450
  {
  }

  // --------------------------------------------------------------- template

  const TemplatePrefix: string := "systems/age-system/templates/sheets/"
  const TemplateSuffix: string := "-sheet.hbs"

  /** The `template` getter: the sheet template named after the item type. */
  function TemplatePath(itemType: string): (p: string)
    ensures |p| == |TemplatePrefix| + |itemType| + |TemplateSuffix|
    ensures p[..|TemplatePrefix|] == TemplatePrefix
    ensures p[|TemplatePrefix|..|p| - |TemplateSuffix|] == itemType
    ensures p[|p| - |TemplateSuffix|..] == TemplateSuffix
  {
    TemplatePrefix + itemType + TemplateSuffix
  }

  /** The item type a sheet template path names, if it has the template shape. */
  function TypeOfTemplate(p: string): (t: Option<string>)
    ensures t.Some? ==> |TemplatePrefix| + |t.value| + |TemplateSuffix| == |p|
  {
    if |p| >= |TemplatePrefix| + |TemplateSuffix|
       && p[..|TemplatePrefix|] == TemplatePrefix
       && p[|p| - |TemplateSuffix|..] == TemplateSuffix
    then Some(p[|TemplatePrefix|..|p| - |TemplateSuffix|])
    else None
  }

  /** Every type's template path reads back as that type. */
  lemma TemplateRoundTrip(itemType: string)
    ensures TypeOfTemplate(TemplatePath(itemType)) == Some(itemType)
  {
  }

  /** Every path of the template shape is the template path of the type it names. */
  lemma TemplateParseSound(p: string)
    requires TypeOfTemplate(p).Some?
    ensures TemplatePath(TypeOfTemplate(p).value) == p
  {
    var t := TypeOfTemplate(p).value;
    var q := TemplatePath(t);
    assert |q| == |p|;
    assert p == p[..|TemplatePrefix|] + p[|TemplatePrefix|..|p| - |TemplateSuffix|] + p[|p| - |TemplateSuffix|..];
  }

  /** Distinct item types never share a template. */
  lemma TemplatePathInjective(a: string, b: string)
    requires TemplatePath(a) == TemplatePath(b)
    ensures a == b
  {
    TemplateRoundTrip(a);
    TemplateRoundTrip(b);
  }

  // ---------------------------------------------------------- weapon groups

  /** The part of an item's data that the getter and the toggle read.
      `wgroups` is whatever the item stores: an array of weapon-group ids on
      the types that have them, `undefined` on the others. */
  datatype ItemData = ItemData(wgroups: JsValue)

  /** The `hasWgroups` getter: the truthiness of `wgroups`. Missing and
      `null` lists are false; every array is true, the empty one included. */
  function HasWgroups(item: ItemData): (has: bool)
    ensures has <==> Truthy(item.wgroups)
    ensures item.wgroups.List? ==> has
    ensures item.wgroups.Undefined? || item.wgroups.Null? ==> !has
  {
    Truthy(item.wgroups)
  }

  /** `indexOf` of an element known to be present. */
  function FirstIndex(xs: seq<string>, x: string): (p: nat)
    requires x in xs
    ensures p < |xs| && xs[p] == x && x !in xs[..p]
  {
    if xs[0] == x then 0
    else
      var p := 1 + FirstIndex(xs[1..], x);
      assert xs[..p] == [xs[0]] + xs[1..][..p - 1];
      p
  }

  /** Toggle `id` in the list: remove its first occurrence (the rest keep
      their order) when present, append it when absent. */
  function ToggleGroup(groups: seq<string>, id: string): (r: seq<string>)
    ensures id in groups ==>
      exists p :: 0 <= p < |groups| && groups[p] == id && id !in groups[..p] && r == groups[..p] + groups[p + 1..]
    ensures id in groups ==> multiset(r) == multiset(groups) - multiset{id}
    ensures id !in groups ==> r == groups + [id]
  {
    if id in groups then
      var p := FirstIndex(groups, id);
      assert groups == groups[..p] + [groups[p]] + groups[p + 1..];
      groups[..p] + groups[p + 1..]
    else groups + [id]
  }

  /** `_onWeaponGroupToggle`: the trimmed id is toggled in the item's list.
      `None` is the TypeError raised when `wgroups` is not an array: `includes`
      is missing on `undefined`, `null`, numbers, booleans and plain objects,
      and on a string `splice` and `push` are. */
  function OnWeaponGroupToggle(item: ItemData, rawId: string): (r: Option<seq<string>>)
    ensures r.Some? <==> item.wgroups.List?
    ensures !HasWgroups(item) ==> r.None?
    ensures r.Some? ==> r.value == ToggleGroup(item.wgroups.items, JsText.Trim(rawId))
  {
    match item.wgroups
    case List(groups) => Some(ToggleGroup(groups, JsText.Trim(rawId)))
    case _ => None
  }

  /** Toggling an absent id twice gives the original list back. */
  lemma ToggleTwiceAbsent(groups: seq<string>, id: string)
    requires id !in groups
    ensures ToggleGroup(ToggleGroup(groups, id), id) == groups
  {
    var once := groups + [id];
    assert once[..|groups|] == groups;
    assert FirstIndex(once, id) == |groups|;
  }

  /** Toggling an id held once twice keeps the same elements but moves the id
      to the end of the list. */
  lemma ToggleTwiceOnce(groups: seq<string>, id: string)
    requires multiset(groups)[id] == 1
    ensures var twice := ToggleGroup(ToggleGroup(groups, id), id);
      multiset(twice) == multiset(groups) && twice[|twice| - 1] == id
  {
    var once := ToggleGroup(groups, id);
    assert multiset(once)[id] == 0;
    assert id !in once;
  }

  /** The order is not restored: ["a", "b"] toggled twice on "a" is ["b", "a"]. */
  lemma ToggleTwiceReorders()
    ensures ToggleGroup(ToggleGroup(["a", "b"], "a"), "a") == ["b", "a"]
  {
    assert ["a", "b"][0] == "a";
    assert FirstIndex(["a", "b"], "a") == 0;
    assert "a" !in ["b"];
  }

  /** For a list holding the id at most once, a toggle flips its membership. */
  lemma ToggleFlipsMembership(groups: seq<string>, id: string)
    requires multiset(groups)[id] <= 1
    ensures id in ToggleGroup(groups, id) <==> id !in groups
  {
    if id in groups {
      assert multiset(ToggleGroup(groups, id))[id] == 0;
    }
  }

  /** With a duplicated id a toggle removes one copy only, so the id stays. */
  lemma ToggleKeepsDuplicate(groups: seq<string>, id: string)
    requires multiset(groups)[id] >= 2
    ensures id in ToggleGroup(groups, id)
  {
    assert multiset(ToggleGroup(groups, id))[id] >= 1;
  }

  /** Toggling twice restores the list exactly when the id was absent, or was
      held once as the last element. */
  lemma ToggleTwiceRestoresIff(groups: seq<string>, id: string)
    ensures ToggleGroup(ToggleGroup(groups, id), id) == groups <==>
      id !in groups || (multiset(groups)[id] == 1 && groups[|groups| - 1] == id)
  {
    var once := ToggleGroup(groups, id);
    var twice := ToggleGroup(once, id);
    if id !in groups {
      ToggleTwiceAbsent(groups, id);
    } else if multiset(groups)[id] == 1 {
      var p := FirstIndex(groups, id);
      assert once == groups[..p] + groups[p + 1..];
      assert multiset(once)[id] == 0;
      assert twice == once + [id];
      if p == |groups| - 1 {
        assert groups == groups[..p] + [id];
      } else {
        OccursOnce(groups, p, |groups| - 1);
        assert twice[|groups| - 1] == id;
      }
    } else {
      assert multiset(once)[id] >= 1;
      assert |multiset(twice)| == |multiset(groups)| - 2;
      assert |twice| != |groups|;
    }
  }

  /** An element of multiplicity one appears at no other position. */
  lemma OccursOnce(xs: seq<string>, i: nat, j: nat)
    requires i < j < |xs| && multiset(xs)[xs[i]] == 1
    ensures xs[j] != xs[i]
  {
    assert xs == xs[..j] + [xs[j]] + xs[j + 1..];
    assert xs[..j][i] == xs[i];
    assert multiset(xs[..j])[xs[i]] >= 1;
  }
}

=== FILE: js_text.dfy ===
/** The pieces of JavaScript's string semantics the plugin relies on:
    `String.prototype.trim`, `String.prototype.toLowerCase` and the decimal
    rendering of an integral number. */
module JsText {

  /** ECMAScript WhiteSpace and LineTerminator code points: the set `trim` strips. */
  const Whitespace: set<char> := {
    ' ', '\t', '\n', '\r', '\U{000B}', '\U{000C}', '\U{00A0}', '\U{1680}',
    '\U{2000}', '\U{2001}', '\U{2002}', '\U{2003}', '\U{2004}', '\U{2005}',
    '\U{2006}', '\U{2007}', '\U{2008}', '\U{2009}', '\U{200A}',
    '\U{2028}', '\U{2029}', '\U{202F}', '\U{205F}', '\U{3000}', '\U{FEFF}'
  }

  predicate IsWhitespace(c: char) {
    c in Whitespace
  }

  /** How many whitespace characters `s` starts with. */
  function LeadingWhitespace(s: string): (n: nat)
    ensures n <= |s|
    ensures forall k :: 0 <= k < n ==> IsWhitespace(s[k])
    ensures n == |s| || !IsWhitespace(s[n])
  {
    if |s| > 0 && IsWhitespace(s[0]) then
      var n := 1 + LeadingWhitespace(s[1..]);
      assert forall k :: 1 <= k < n ==> s[k] == s[1..][k - 1];
      n
    else 0
  }

  /** How many whitespace characters `s` ends with. */
  function TrailingWhitespace(s: string): (n: nat)
    ensures n <= |s|
    ensures forall k :: |s| - n <= k < |s| ==> IsWhitespace(s[k])
    ensures n == |s| || !IsWhitespace(s[|s| - n - 1])
  {
    if |s| > 0 && IsWhitespace(s[|s| - 1]) then
      var n := 1 + TrailingWhitespace(s[..|s| - 1]);
      assert forall k :: |s| - n <= k < |s| - 1 ==> s[k] == s[..|s| - 1][k];
      n
    else 0
  }

  /** `String.prototype.trim`: `s` with all surrounding whitespace cut away;
      what is left neither starts nor ends with whitespace. */
  function Trim(s: string): (r: string)
    ensures exists i :: CutAt(s, i, r)
    ensures r == [] || (!IsWhitespace(r[0]) && !IsWhitespace(r[|r| - 1]))
  {
    var a := LeadingWhitespace(s);
    var b := TrailingWhitespace(s[a..]);
    var r := s[a..|s| - b];
    assert forall k :: |s| - b <= k < |s| ==> s[k] == s[a..][k - a];
    assert CutAt(s, a, r);
    r
  }

  /** `r` sits in `s` at offset `i` with only whitespace around it. */
  ghost predicate CutAt(s: string, i: int, r: string) {
    && 0 <= i <= |s| - |r|
    && r == s[i..i + |r|]
    && (forall k :: 0 <= k < i ==> IsWhitespace(s[k]))
    && (forall k :: i + |r| <= k < |s| ==> IsWhitespace(s[k]))
  }

  /** A string without surrounding whitespace is its own trim. */
  lemma TrimOfTrimmed(s: string)
    requires s == [] || (!IsWhitespace(s[0]) && !IsWhitespace(s[|s| - 1]))
    ensures Trim(s) == s
  {
    assert LeadingWhitespace(s) == 0;
    assert s[0..] == s;
    assert TrailingWhitespace(s) == 0;
  }

  /** Trimming twice is trimming once. */
  lemma TrimIdempotent(s: string)
    ensures Trim(Trim(s)) == Trim(s)
  {
    TrimOfTrimmed(Trim(s));
  }

  /** The single-character case mapping of `toLowerCase` for ASCII and Latin-1:
      A-Z and the Latin-1 capitals (except the multiplication sign) move 32 up. */
  function LowerChar(c: char): (r: char)
    ensures !IsUpper(r)
    ensures IsUpper(c) ==> r as int == c as int + 32
    ensures !IsUpper(c) ==> r == c
  {
    if IsUpper(c) then (c as int + 32) as char else c
  }

  predicate IsUpper(c: char) {
    ('A' <= c <= 'Z') || ('\U{00C0}' <= c <= '\U{00DE}' && c != '\U{00D7}')
  }

  /** `String.prototype.toLowerCase`, restricted to the mapping of `LowerChar`. */
  function ToLower(s: string): (r: string)
    ensures |r| == |s|
    ensures forall k :: 0 <= k < |s| ==> r[k] == LowerChar(s[k])
  {
    if s == [] then [] else [LowerChar(s[0])] + ToLower(s[1..])
  }

  /** Lower-casing twice is lower-casing once. */
  lemma ToLowerIdempotent(s: string)
    ensures ToLower(ToLower(s)) == ToLower(s)
  {
    var once := ToLower(s);
    var twice := ToLower(once);
    assert forall k :: 0 <= k < |s| ==> twice[k] == once[k];
  }

  predicate IsDigit(c: char) {
    '0' <= c <= '9'
  }

  function DigitChar(d: nat): (c: char)
    requires d < 10
    ensures IsDigit(c) && c as int - '0' as int == d
  {
    ('0' as int + d) as char
  }

  /** Decimal digits of `n`, most significant first, without leading zeros. */
  function NatToDigits(n: nat): (r: string)
    ensures |r| >= 1
    ensures forall k :: 0 <= k < |r| ==> IsDigit(r[k])
    ensures r[0] == '0' ==> n == 0
    decreases n
  {
    if n < 10 then [DigitChar(n)] else NatToDigits(n / 10) + [DigitChar(n % 10)]
  }

  function DigitValue(c: char): (d: nat)
    requires IsDigit(c)
    ensures d < 10
  {
    c as int - '0' as int
  }

  /** The value a string of decimal digits denotes. */
  function DigitsValue(s: string): nat
    requires forall k :: 0 <= k < |s| ==> IsDigit(s[k])
  {
    if s == [] then 0 else 10 * DigitsValue(s[..|s| - 1]) + DigitValue(s[|s| - 1])
  }

  /** Reading back the rendered digits gives the number again. */
  lemma {:induction false} DigitsRoundTrip(n: nat)
    ensures DigitsValue(NatToDigits(n)) == n
    decreases n
  {
    if n >= 10 {
      var r := NatToDigits(n);
      assert r[..|r| - 1] == NatToDigits(n / 10);
      DigitsRoundTrip(n / 10);
    }
  }

  /** The exact decimal digits of `n`. This is `String(n)` for an integral
      number of magnitude at most 2^53; above that JavaScript prints the
      shortest digits that round-trip, and from 10^21 on exponent notation. */
  function IntToString(n: int): (r: string)
    ensures |r| >= 1
    ensures n < 0 <==> r[0] == '-'
    ensures n >= 0 ==> r == NatToDigits(n)
    ensures n < 0 ==> r[1..] == NatToDigits(-n)
  {
    if n < 0 then "-" + NatToDigits(-n) else NatToDigits(n)
  }
}

=== FILE: js_values.dfy ===
/** JavaScript values, restricted to the kinds the plugin's rules meet:
    the helpers' arguments and the fields of an item's data. */
module JsValues {
  /** `List` is an array of strings, the only kind of array modelled. */
  datatype JsValue =
    | Undefined
    | Null
    | Bool(b: bool)
    | Num(n: int)
    | Str(s: string)
    | List(items: seq<string>)
    | Obj

  /** `typeof v === "object"`: `null`, arrays and plain objects. */
  predicate IsObjectTyped(v: JsValue) {
    v.Null? || v.List? || v.Obj?
  }

  /** ToBoolean: `undefined`, `null`, `false`, `0` and `""` are falsy;
      every other value, arrays and objects included, is truthy. */
  predicate Truthy(v: JsValue) {
    match v
    case Undefined => false
    case Null => false
    case Bool(b) => b
    case Num(n) => n != 0
    case Str(s) => s != ""
    case List(_) => true
    case Obj => true
  }

  /** An array is truthy whatever its length, so `[]` passes an `if`. */
  lemma EveryListTruthy(items: seq<string>)
    ensures Truthy(List(items))
  {
  }
}

=== FILE: power_toggles.dfy ===
/** The power item's toggles: damage and healing exclude each other; fatigue
    and the resistance test flip freely. Each handler is modelled by the item
    state once all of its updates have landed. */
module PowerToggles {

  datatype PowerFlags = PowerFlags(causeDamage: bool, causeHealing: bool, useFatigue: bool, hasTest: bool)

  /** A power never both damages and heals. */
  predicate Exclusive(p: PowerFlags) {
    !(p.causeDamage && p.causeHealing)
  }

  /** `_onToggleDamage`: flip `causeDamage`; switching it on then clears
      `causeHealing`, switching it off leaves healing as it was. */
  function ToggleDamage(p: PowerFlags): (r: PowerFlags)
    ensures r.causeDamage == !p.causeDamage
    ensures Exclusive(r)
    ensures !r.causeDamage ==> r.causeHealing == p.causeHealing
    ensures r.useFatigue == p.useFatigue && r.hasTest == p.hasTest
  {
    var flipped := p.(causeDamage := !p.causeDamage);
    if flipped.causeDamage then flipped.(causeHealing := false) else flipped
  }

  /** `_onToggleHealing`: the mirror image of `ToggleDamage`. */
  function ToggleHealing(p: PowerFlags): (r: PowerFlags)
    ensures r.causeHealing == !p.causeHealing
    ensures Exclusive(r)
    ensures !r.causeHealing ==> r.causeDamage == p.causeDamage
    ensures r.useFatigue == p.useFatigue && r.hasTest == p.hasTest
  {
    var flipped := p.(causeHealing := !p.causeHealing);
    if flipped.causeHealing then flipped.(causeDamage := false) else flipped
  }

  /** `_onToggleFatigue`: flip `useFatigue` and nothing else. */
  function ToggleFatigue(p: PowerFlags): (r: PowerFlags)
    ensures r.useFatigue != p.useFatigue
    ensures r.causeDamage == p.causeDamage && r.causeHealing == p.causeHealing && r.hasTest == p.hasTest
  {
    p.(useFatigue := !p.useFatigue)
  }

  /** `_onToggleResistTest`: flip `hasTest` and nothing else. */
  function ToggleResistTest(p: PowerFlags): (r: PowerFlags)
    ensures r.hasTest != p.hasTest
    ensures r.causeDamage == p.causeDamage && r.causeHealing == p.causeHealing && r.useFatigue == p.useFatigue
  {
    p.(hasTest := !p.hasTest)
  }

  lemma FatigueInvolution(p: PowerFlags)
    ensures ToggleFatigue(ToggleFatigue(p)) == p
  {
  }

  lemma ResistTestInvolution(p: PowerFlags)
    ensures ToggleResistTest(ToggleResistTest(p)) == p
  {
  }

  /** Damage toggled twice is not the identity: whichever way it starts,
      healing ends up off. */
  lemma ToggleDamageTwice(p: PowerFlags)
    ensures ToggleDamage(ToggleDamage(p)) == p.(causeHealing := false)
  {
  }

  lemma ToggleHealingTwice(p: PowerFlags)
    ensures ToggleHealing(ToggleHealing(p)) == p.(causeDamage := false)
  {
  }

  /** A click on one of the four toggles of a power sheet. */
  datatype Toggle = Damage | Healing | Fatigue | ResistTest

  function Apply(p: PowerFlags, t: Toggle): PowerFlags {
    match t
    case Damage => ToggleDamage(p)
    case Healing => ToggleHealing(p)
    case Fatigue => ToggleFatigue(p)
    case ResistTest => ToggleResistTest(p)
  }

  /** The state after the clicks `ts`, in order. */
  function ApplyAll(p: PowerFlags, ts: seq<Toggle>): PowerFlags
    decreases ts
  {
    if ts == [] then p else ApplyAll(Apply(p, ts[0]), ts[1..])
  }

  /** No sequence of clicks breaks the exclusion once it holds. */
  lemma {:induction false} ExclusionPreserved(p: PowerFlags, ts: seq<Toggle>)
    requires Exclusive(p)
    ensures Exclusive(ApplyAll(p, ts))
    decreases ts
  {
    if ts != [] {
      ExclusionPreserved(Apply(p, ts[0]), ts[1..]);
    }
  }

  /** Whatever the starting state, one click on damage or healing establishes
      the exclusion for good. */
  lemma {:induction false} ExclusionEstablished(p: PowerFlags, ts: seq<Toggle>)
    requires Damage in ts || Healing in ts
    ensures Exclusive(ApplyAll(p, ts))
    decreases ts
  {
    if ts[0] == Damage || ts[0] == Healing {
      ExclusionPreserved(Apply(p, ts[0]), ts[1..]);
    } else {
      ExclusionEstablished(Apply(p, ts[0]), ts[1..]);
    }
  }
}

=== FILE: template_helpers.dfy ===
/** The three Handlebars helpers the system registers at `init`: `concat`,
    `ageffect` and `when`. Arguments are JavaScript values; Handlebars always
    appends its options hash, an `Obj`, to a helper's arguments. */
module TemplateHelpers {
  import opened Wrappers
  import opened JsValues
  import JsText

  /** What `outStr += a` appends for a non-object argument. */
  function Render(a: JsValue): string
    requires !IsObjectTyped(a)
  {
    match a
    case Str(s) => s
    case Num(n) => JsText.IntToString(n)
    case Bool(b) => if b then "true" else "false"
    case Undefined => "undefined"
  }

  // ---------------------------------------------------------------- concat

  /** The non-object arguments, in order. */
  function NonObjects(args: seq<JsValue>): (kept: seq<JsValue>)
    ensures |kept| <= |args|
    ensures forall k :: 0 <= k < |kept| ==> !IsObjectTyped(kept[k])
    ensures forall a :: a in kept <==> a in args && !IsObjectTyped(a)
  {
    if args == [] then []
    else (if IsObjectTyped(args[0]) then [] else [args[0]]) + NonObjects(args[1..])
  }

  /** The renderings of `kept`, joined in order. */
  function Joined(kept: seq<JsValue>): string
    requires forall k :: 0 <= k < |kept| ==> !IsObjectTyped(kept[k])
  {
    if kept == [] then "" else Render(kept[0]) + Joined(kept[1..])
  }

  /** What one pass of the helper's loop appends for `a`. */
  function Piece(a: JsValue): string {
    if IsObjectTyped(a) then "" else Render(a)
  }

  /** The helper's output after its loop has seen `args`, built left to right. */
  function ConcatOf(args: seq<JsValue>): string {
    if args == [] then "" else ConcatOf(args[..|args| - 1]) + Piece(args[|args| - 1])
  }

  /** The `concat` helper: walk the arguments in order, appending each one
      whose `typeof` is not "object". */
  method Concat(args: seq<JsValue>) returns (out: string)
    ensures out == Joined(NonObjects(args))
  {
    out := "";
    var i := 0;
    while i < |args|
      invariant 0 <= i <= |args|
      invariant out == ConcatOf(args[..i])
    {
      assert args[..i + 1][..i] == args[..i];
      if !IsObjectTyped(args[i]) {
        out := out + Render(args[i]);
      }
      i := i + 1;
    }
    assert args[..i] == args;
    ConcatIsJoinOfNonObjects(args);
  }

  lemma {:induction false} JoinedAppend(a: seq<JsValue>, b: seq<JsValue>)
    requires forall k :: 0 <= k < |a| ==> !IsObjectTyped(a[k])
    requires forall k :: 0 <= k < |b| ==> !IsObjectTyped(b[k])
    ensures Joined(a + b) == Joined(a) + Joined(b)
  {
    if a == [] {
      assert a + b == b;
    } else {
      assert (a + b)[0] == a[0] && (a + b)[1..] == a[1..] + b;
      JoinedAppend(a[1..], b);
    }
  }

  lemma {:induction false} NonObjectsAppend(a: seq<JsValue>, b: seq<JsValue>)
    ensures NonObjects(a + b) == NonObjects(a) + NonObjects(b)
  {
    if a == [] {
      assert a + b == b;
    } else {
      assert (a + b)[0] == a[0] && (a + b)[1..] == a[1..] + b;
      NonObjectsAppend(a[1..], b);
    }
  }

  /** The loop's left-to-right output is exactly the in-order rendering of
      the non-object arguments. */
  lemma {:induction false} ConcatIsJoinOfNonObjects(args: seq<JsValue>)
    ensures ConcatOf(args) == Joined(NonObjects(args))
  {
    if args != [] {
      var init, last := args[..|args| - 1], args[|args| - 1];
      assert args == init + [last];
      ConcatIsJoinOfNonObjects(init);
      NonObjectsAppend(init, [last]);
      JoinedAppend(NonObjects(init), NonObjects([last]));
    }
  }

  /** Concatenating two argument lists concatenates the outputs. */
  lemma ConcatAppend(a: seq<JsValue>, b: seq<JsValue>)
    ensures Joined(NonObjects(a + b)) == Joined(NonObjects(a)) + Joined(NonObjects(b))
  {
    NonObjectsAppend(a, b);
    JoinedAppend(NonObjects(a), NonObjects(b));
  }

  /** The options hash Handlebars appends never reaches the output. */
  lemma ConcatIgnoresOptionsHash(args: seq<JsValue>)
    ensures Joined(NonObjects(args + [Obj])) == Joined(NonObjects(args))
  {
    ConcatAppend(args, [Obj]);
  }

  /** `{{concat "a" 1 true}}` renders "a1true": numbers and booleans are
      stringified, and the trailing options hash is skipped. */
  lemma ConcatExample()
    ensures Joined(NonObjects([Str("a"), Num(1), Bool(true), Obj])) == "a1true"
  {
    assert JsText.IntToString(1) == "1";
  }

  // --------------------------------------------------------------- ageffect

  /** The `ageffect` helper: the label `e[0]` of the first `[label, mask]`
      pair whose mask is `mask`, else the localised "custom" label. */
  method Ageffect(mask: string, options: seq<(string, string)>, custom: string) returns (shown: string)
    ensures (exists i :: 0 <= i < |options| && options[i].1 == mask) ==>
      exists i :: 0 <= i < |options| && options[i].1 == mask && shown == options[i].0
        && forall j :: 0 <= j < i ==> options[j].1 != mask
    ensures (forall i :: 0 <= i < |options| ==> options[i].1 != mask) ==> shown == custom
  {
    var o := 0;
    while o < |options|
      invariant 0 <= o <= |options|
      invariant forall j :: 0 <= j < o ==> options[j].1 != mask
    {
      var e := options[o];
      if e.1 == mask {
        return e.0;
      }
      o := o + 1;
    }
    return custom;
  }

  // ------------------------------------------------------------------- when

  /** An operand of `when`, restricted to numbers and booleans. */
  type Operand = v: JsValue | v.Num? || v.Bool? witness Num(0)

  datatype Operator = Eq | NotEq | Gt | Or | And | Mod

  /** Which block a block helper renders: `options.fn` or `options.inverse`. */
  datatype Block = Fn | Inverse

  /** The keys of the helper's `operators` object. */
  function OperatorNamed(name: string): (op: Option<Operator>)
    ensures op.Some? <==> name in {"eq", "noteq", "gt", "or", "and", "%"}
  {
    match name
    case "eq" => Some(Eq)
    case "noteq" => Some(NotEq)
    case "gt" => Some(Gt)
    case "or" => Some(Or)
    case "and" => Some(And)
    case "%" => Some(Mod)
    case _ => None
  }

  /** JavaScript `Number(v)`. */
  function ToNumber(v: Operand): int {
    match v
    case Num(n) => n
    case Bool(b) => if b then 1 else 0
  }

  /** The value of `l || r`. */
  function OrValue(l: Operand, r: Operand): Operand {
    if Truthy(l) then l else r
  }

  /** The value of `l && r`. */
  function AndValue(l: Operand, r: Operand): Operand {
    if Truthy(l) then r else l
  }

  function Abs(x: int): nat {
    if x < 0 then -x else x
  }

  /** JavaScript `%` on integral numbers: truncated division, so the result
      takes the sign of the dividend; `None` is NaN (a zero divisor). */
  function JsRem(l: int, r: int): (m: Option<int>)
    ensures m.None? <==> r == 0
    ensures m.Some? ==> Abs(m.value) < Abs(r) && (m.value == 0 || (m.value < 0 <==> l < 0))
    ensures m.Some? ==> (l - m.value) % r == 0
  {
    if r == 0 then None
    else
      RemainderIsMultiple(l, r);
      Some(TruncRem(l, r))
  }

  /** The remainder of truncated division: `|l| % |r|`, with the sign of `l`. */
  function TruncRem(l: int, r: int): int
    requires r != 0
  {
    if l >= 0 then l % Abs(r) else -((-l) % Abs(r))
  }

  /** Taking the truncated remainder away from the dividend leaves a multiple
      of the divisor. */
  lemma RemainderIsMultiple(l: int, r: int)
    requires r != 0
    ensures (l - TruncRem(l, r)) % r == 0
  {
    var a, b := Abs(l), Abs(r);
    var n := a / b;
    assert a - a % b == n * b;
    var sl := if l >= 0 then 1 else -1;
    var sr := if r > 0 then 1 else -1;
    assert l - TruncRem(l, r) == sl * (a - a % b);
    assert b == sr * r;
    var q := sl * n * sr;
    assert sl * (n * b) == sl * n * (sr * r) == q * r;
    DivisibleRemainder(l - TruncRem(l, r), r, q);
  }

  /** Abstract Equality (`==`, section 7.2.14 of ECMA-262) on numbers and
      booleans: same-type operands compare directly, and a boolean facing a
      number is first converted to 0 or 1. */
  predicate LooselyEqual(l: Operand, r: Operand) {
    match (l, r)
    case (Num(a), Num(b)) => a == b
    case (Bool(a), Bool(b)) => a == b
    case (Bool(a), Num(b)) => (if a then 1 else 0) == b
    case (Num(a), Bool(b)) => a == (if b then 1 else 0)
  }

  /** `when`'s comparison. Loose equality is `LooselyEqual`, and `>`
      compares numeric values (a boolean counts as 0 or 1); `||` and `&&` yield
      one of their operands, tested for truthiness; `%` holds when the
      remainder `=== 0`, which a zero divisor's NaN never is. */
  function Holds(l: Operand, op: Operator, r: Operand): (h: bool)
    ensures op == Eq ==> (h <==> LooselyEqual(l, r))
    ensures op == NotEq ==> (h <==> !LooselyEqual(l, r))
    ensures op == Gt ==> (h <==> ToNumber(l) > ToNumber(r))
    ensures op == Or ==> (h <==> Truthy(l) || Truthy(r))
    ensures op == And ==> (h <==> Truthy(l) && Truthy(r))
    ensures op == Mod ==> (h <==> ToNumber(r) != 0 && ToNumber(l) % ToNumber(r) == 0)
  {
    match op
    case Eq => ToNumber(l) == ToNumber(r)
    case NotEq => ToNumber(l) != ToNumber(r)
    case Gt => ToNumber(l) > ToNumber(r)
    case Or => Truthy(OrValue(l, r))
    case And => Truthy(AndValue(l, r))
    case Mod =>
      RemainderZeroIff(ToNumber(l), ToNumber(r));
      JsRem(ToNumber(l), ToNumber(r)) == Some(0)
  }

  /** The `when` helper. `None` is the TypeError thrown when `operator` is not
      one of the table's keys. */
  function When(l: Operand, operator: string, r: Operand): (b: Option<Block>)
    ensures b.None? <==> OperatorNamed(operator).None?
    ensures b.Some? ==> (b.value == Fn <==> Holds(l, OperatorNamed(operator).value, r))
  {
    match OperatorNamed(operator)
    case None => None
    case Some(op) => Some(if Holds(l, op, r) then Fn else Inverse)
  }

  /** `||` and `&&` pick the block by the truthiness of their operands. */
  lemma OrAndByTruthiness(l: Operand, r: Operand)
    ensures When(l, "or", r) == Some(if Truthy(l) || Truthy(r) then Fn else Inverse)
    ensures When(l, "and", r) == Some(if Truthy(l) && Truthy(r) then Fn else Inverse)
  {
  }

  /** `eq` compares numerically, so `true` equals 1 and `false` equals 0. */
  lemma EqNumeric(l: Operand, r: Operand)
    ensures When(l, "eq", r) == Some(if ToNumber(l) == ToNumber(r) then Fn else Inverse)
    ensures When(Bool(true), "eq", Num(1)) == Some(Fn)
  {
  }

  /** `gt` compares numerically. */
  lemma GtNumeric(l: Operand, r: Operand)
    ensures When(l, "gt", r) == Some(if ToNumber(l) > ToNumber(r) then Fn else Inverse)
  {
  }

  /** `noteq` renders the block `eq` does not. */
  lemma NotEqOpposesEq(l: Operand, r: Operand)
    ensures When(l, "eq", r).Some? && When(l, "noteq", r).Some?
    ensures When(l, "eq", r).value != When(l, "noteq", r).value
  {
  }

  /** Truncated and Euclidean remainders vanish together. */
  lemma {:induction false} JsRemZeroIff(l: int, r: int)
    requires r != 0
    ensures JsRem(l, r) == Some(0) <==> l % r == 0
  {
    var q := l / r;
    assert l == q * r + l % r;
    if l % r == 0 {
      var n := Abs(l) / Abs(r);
      var m := Abs(l) % Abs(r);
      assert Abs(l) == n * Abs(r) + m;
      var qa := if (l < 0) == (r < 0) then q else -q;
      assert Abs(l) == qa * Abs(r);
      DivisibleRemainder(Abs(l), Abs(r), qa);
    }
  }

  /** A JavaScript remainder is `0` exactly when the divisor is non-zero and
      divides the dividend. */
  lemma RemainderZeroIff(l: int, r: int)
    ensures JsRem(l, r) == Some(0) <==> r != 0 && l % r == 0
  {
    if r != 0 {
      JsRemZeroIff(l, r);
    }
  }

  /** An exact multiple leaves a zero (Euclidean) remainder. */
  lemma DivisibleRemainder(a: int, b: int, q: int)
    requires b != 0 && a == q * b
    ensures a % b == 0
  {
    var q0, m0 := a / b, a % b;
    assert a == q0 * b + m0 && 0 <= m0 < Abs(b);
    assert (q - q0) * b == m0;
    if q - q0 != 0 {
      assert Abs((q - q0) * b) >= Abs(b) by {
        AbsProduct(q - q0, b);
      }
    }
  }

  lemma AbsProduct(x: int, y: int)
    requires x != 0
    ensures Abs(x * y) >= Abs(y)
  {
    if x > 0 {
      if y >= 0 { assert x * y >= y; } else { assert x * y <= y; }
    } else {
      if y >= 0 { assert x * y <= -y; } else { assert x * y >= -y; }
    }
  }

  /** `%` renders the `fn` block exactly when the divisor is non-zero and
      divides the dividend; a zero divisor gives NaN, which is not `=== 0`. */
  lemma ModIsDivisibility(l: Operand, r: Operand)
    ensures When(l, "%", r) == Some(Fn) <==> ToNumber(r) != 0 && ToNumber(l) % ToNumber(r) == 0
  {
    if ToNumber(r) != 0 {
      JsRemZeroIff(ToNumber(l), ToNumber(r));
    }
  }
}

=== FILE: wrappers.dfy ===
/** A plain option type shared by the model's modules. `None` stands
    for a JavaScript `undefined` or for a handler that throws before it writes. */
module Wrappers {

  datatype Option<+T> = None | Some(value: T)
}
